=== FILE: README.md ===
# Bubble Kvas game engine — a Dafny model

This project models the game engine inside the single React component of the
"Bubble Kvas" bubble-popping game (`src/pages/Index.tsx`), lifted out of the
JSX and stated as pure transitions over immutable values:

- **Field generation** (`Generation`): the bubble count as a function of mode
  and level or score, the special-bubble chance, and the `bubble-<i>` ids. The
  random draws are an explicit oracle `draw: nat -> Draw`, one record per
  bubble.
- **Effect resolution** (`Effects`): ordinary pop, bomb (axis-aligned box of
  half-width 60), lightning (horizontal distance at most 30, any height) and
  multicolor (every bubble of one drawn ordinary hue). Each effect has a
  counting filter and a separately written keeping filter. The model proves
  they are exact complements that keep the survivors in order (`Seqs`).
- **Camera** (`Viewport`): the Idle/Dragging machine for mouse and touch. Each
  move sets each axis to `clamp(anchor + (p - start), -200, 200)`. Up, leave
  and touch-end always end the drag.
- **Progression ledger** (`Progress`): the best score per mode, the
  unlocked-level watermark, the key-value store they are written through, and
  the level grid's unlocked/completed status.
- **Session** (`Game`): events, the two after-change effects (best score and
  unlock) modelled as `Settle`, starting and continuing games, and invariants
  over any event sequence. `Scenarios` holds whole-round behaviours and worked
  examples.

Bubble positions and sizes are `real`. Pointer coordinates and camera offsets
are `int`.

A notable as-written behaviour: multicolor draws its hue from the six ordinary
hues, and a multicolor bubble wears its own special tint. So tapping it never
removes it. A field left with only a multicolor bubble can never be cleared by
clicking, and every click on it adds 50 points (`Game.LoneMulticolorNeverClears`).

Level 1 generates `min(40 + 5*1, 80) = 45` bubbles, so clearing it by clicks
scores 450 (`Scenarios.FirstLevelCleared`).

A locked level cannot be started: its grid button is disabled, and its click
handler also starts the level only when `level <= unlockedLevels`. `Game.Step`
models that guard.

## Model

| member | source | states |
|---|---|---|
| Seqs.Filter | src/pages/Index.tsx:155-176 | a filter keeps exactly the elements satisfying the predicate and never grows the sequence |
| Seqs.FilterPartition | src/pages/Index.tsx:155-160 | a counting filter and a keeping filter with complementary conditions split the field: their multisets add up to the field's, so the number counted is exactly the number dropped |
| Seqs.FilterIsSubsequence | src/pages/Index.tsx:159-161 | the keeping filter leaves the survivors in their original order |
| Seqs.FilterDropsOne | src/pages/Index.tsx:182 | a filter rejecting exactly one position removes just that element and keeps the rest in order |
| Bubbles.DecimalRoundTrip | src/pages/Index.tsx:125 | the decimal text in a bubble id reads back as its index |
| Bubbles.BubbleIdInjective | src/pages/Index.tsx:125 | `bubble-i` and `bubble-j` are equal exactly when i = j |
| Bubbles.FilterKeepsIdsUnique | src/pages/Index.tsx:159-182 | removing bubbles from a field with unique ids leaves unique ids |
| Generation.SpecialChance | src/pages/Index.tsx:105-116 | the special chance is at most 0.2 in level mode (at least 0.07 from level 1) and at most 0.15 in endless mode (at least 0.08) |
| Generation.Spawn | src/pages/Index.tsx:119-134 | bubble i carries id `bubble-i` and the draw's position and size. It is special exactly when its roll is below the chance; it then has the drawn kind and wears that kind's tint, and otherwise the drawn hue. Valid draws put it on the 700 x 800 canvas with size in [30, 50] (the upper end is included because `Math.random() * 20 + 30` rounds to 50 for the largest draws) |
| Generation.Generate | src/pages/Index.tsx:102-136 | a new field has exactly max(0, count) bubbles with ids `bubble-0` … `bubble-(n-1)`, pairwise distinct and well formed. Bubble i is special iff its roll is below the chance. Its position, size, and special kind (with that kind's tint) or palette hue are those of draw i |
| Generation.LevelCount | src/pages/Index.tsx:107-110 | level mode: 45 bubbles at level 1, 5 more per level, capped at 80 from level 8 |
| Generation.EndlessCount | src/pages/Index.tsx:111-114 | endless mode: 50 + 3 per 500 points exactly below 7000 points (so 89 from 6500), and 90 from 7000 |
| Generation.CountMonotone | src/pages/Index.tsx:107-116 | count and special chance never fall as level or score rise; level mode ignores the score and endless mode the level |
| Effects.Resolve | src/pages/Index.tsx:146-186 | ordinary: removes the bubbles with the tapped id, counts 1, scores 10. Bomb, lightning and multicolor keep exactly the bubbles outside the box, outside the band, or not of the drawn hue. They keep survivors in order, count exactly the number dropped, and score 100, 75 or 50. Bomb and lightning remove the tapped bubble; multicolor never does |
| Effects.Find | src/pages/Index.tsx:143 | the lookup returns the first index carrying the id, or nothing exactly when no bubble carries it |
| Effects.Click | src/pages/Index.tsx:142-144 | a tap yields no effect exactly when the id is not on the field |
| Effects.PopRemovesOnlyTarget | src/pages/Index.tsx:180-186 | with unique ids, tapping ordinary bubble k leaves `s[..k] + s[k+1..]`, counts 1 and scores 10 |
| Viewport.Clamp | src/pages/Index.tsx:64-65 | the clamped value lies in [-200, 200], equals the input inside the range and the nearer bound outside it |
| Viewport.Pan | src/pages/Index.tsx:60-66 | the panned offset lies in range on both axes |
| Viewport.Press | src/pages/Index.tsx:51-55 | a press starts a drag anchored at the current offset; a move to the press point itself leaves the camera where it was, so pressing never makes the view jump |
| Viewport.MoveTo | src/pages/Index.tsx:57-66 | a move does nothing unless dragging; while dragging each axis becomes clamp(anchor + (p - start)) |
| Viewport.Release | src/pages/Index.tsx:69-71 | after a release the offset is kept and every later move does nothing until the next press |
| Viewport.Recentre | src/pages/Index.tsx:138 | generation puts the offset at (0, 0) and leaves the drag alone. During a drag, the next move pans from the old anchor as if nothing had happened. When idle, moves still do nothing |
| Viewport.Handle | src/pages/Index.tsx:51-99 | each gesture keeps the offset in range. Mouse down and touch start keep the offset. A mouse move, or a one-finger touch move while dragging, sets each axis to clamp(anchor + (p - start)). Moves while idle, or touches with other than one finger, do nothing. Up, leave and touch-end always stop dragging |
| Viewport.ReplayStaysInRange | src/pages/Index.tsx:57-94 | after any gesture sequence, however large the drags, both axes stay in [-200, 200] |
| Viewport.ReleaseEndsDrag | src/pages/Index.tsx:379-385 | any gesture sequence ending in mouse-up, mouse-leave or touch-end leaves the camera idle |
| Viewport.MovesDoNotAccumulate | src/pages/Index.tsx:57-66 | within a drag the offset depends only on the latest pointer position, not on the path |
| Progress.Load | src/pages/Index.tsx:190-198 | start-up reads the three keys with defaults 0, 0 and 1, giving a ledger consistent with its store |
| Progress.ReloadRestores | src/pages/Index.tsx:190-219 | reloading the store of a consistent ledger gives the same ledger back |
| Progress.RecordScore | src/pages/Index.tsx:201-210 | the current mode's best becomes max(old, score). On a rise exactly that mode's key is written with the new best; otherwise the store is unchanged. The other mode's best and the watermark are untouched, and nothing decreases |
| Progress.RecordClear | src/pages/Index.tsx:213-222 | a cleared level-mode field at a level ≥ the watermark raises the watermark to level + 1 (a strict rise), and the store changes only at the watermark key, which becomes level + 1; otherwise nothing changes |
| Progress.LevelStatus | src/pages/Index.tsx:300-307 | completed implies unlocked; the only unlocked level that is not completed is the watermark itself; clearing level L marks L completed and unlocks L + 1 |
| Progress.CompletedCount | src/pages/Index.tsx:300-302 | among levels 1..n exactly max(0, min(n, unlocked - 1)) are marked completed |
| Progress.ProgressLineMatchesGrid | src/pages/Index.tsx:330 | for a watermark in 1..21, the "completed unlocked - 1 / 20" line equals the number of check-marked grid buttons |
| Game.Init | src/pages/Index.tsx:18-33 | the start-up session satisfies the invariant and carries the stored progress |
| Game.Settle | src/pages/Index.tsx:200-222 | after a change, the level best (level mode) or the endless best (endless mode) becomes max(old, score), the other stays, and the watermark becomes level + 1 exactly when a level-mode field was cleared at or beyond it; only the ledger changes |
| Game.SettleIsIdempotent | src/pages/Index.tsx:201-222 | running the two effects again after they settled changes nothing, so one application reaches their fixpoint |
| Game.Regenerate | src/pages/Index.tsx:450-455 | "continue" gives a field sized for the session's mode, level and score, with the removal counter and camera offset reset |
| Game.StartGame | src/pages/Index.tsx:225-231 | starting sets the mode and (when given and non-zero) the level, resets score and counter to 0, centres the camera, and generates a field sized for the new mode and level; no progress is lost |
| Game.StartGameAsWritten | src/pages/Index.tsx:139 | as written, the field started by startGame is sized for the previous mode, level and score |
| Game.NextLevelGetsStaleField | src/pages/Index.tsx:435 | after clearing level 1 with 450 points, "next level" as written, from a cleared session that satisfies the invariant, gives level 2 a field of 45 bubbles where level 2 calls for 50 |
| Game.Tap | src/pages/Index.tsx:401-404 | a click while dragging, or on an id not on the field, changes nothing; otherwise survivors keep their order, score and counter only grow and no progress is lost |
| Game.TapResolves | src/pages/Index.tsx:142-187 | an idle click on bubble k applies that bubble's effect to field, score and counter, then settles the ledger |
| Game.TapPopsOrdinary | src/pages/Index.tsx:180-186 | clicking an ordinary bubble removes exactly it, adds 10 and 1. The mode's best follows the score. The next level unlocks when it was the last bubble of a level at or beyond the watermark |
| Game.TapFiresSpecial | src/pages/Index.tsx:148-179 | at session level, bomb and lightning remove exactly their box or band, themselves included. Multicolor removes exactly the drawn hue and never itself. Survivors keep their order, the counter grows by the number removed, and the score by 100, 75 or 50 |
| Game.LoneMulticolorNeverClears | src/pages/Index.tsx:163-169 | a field whose only bubble is multicolor keeps it on every click (+50 each), so it is never cleared |
| Game.Step | src/pages/Index.tsx:300-455 | every event keeps the invariant and loses no progress. Gestures only move the camera; a bubble click is `Game.Tap`. A level pick starts that level (level mode, score 0, counter 0, camera at (0,0), its own bubble count) exactly when it lies in 1..20 and is unlocked, and otherwise changes nothing. "Endless mode" starts endless play at score 0, with the counter reset and the camera at (0,0). "Next level" does nothing outside a cleared level-mode field or at level 20; otherwise it starts L + 1 in level mode at score 0, with the counter reset, the camera at (0,0) and L + 1's bubble count. "Continue" does nothing outside a cleared endless field; otherwise it regenerates for the current level and score, keeping the score and resetting the counter and camera |
| Game.RunKeepsWatermarkInGrid | src/pages/Index.tsx:213-222 | from a session at a grid level with watermark at most 21, any event sequence keeps the level in the grid and the watermark at most 21, the range where the progress line matches the grid |
| Game.RunKeepsInvariant | src/pages/Index.tsx:201-222 | over any event sequence the invariant holds, and both bests and the watermark never decrease |
| Scenarios.ClearingByClicks | src/pages/Index.tsx:180-222 | clicking every bubble of an all-ordinary field empties it, scores 10 each and counts each. The mode's best becomes max(old, final score). In level mode at or beyond the watermark, the next level unlocks |
| Scenarios.FirstLevelCleared | src/pages/Index.tsx:107-110 | a new player's level 1 without specials has 45 bubbles; clicking all scores 450, unlocks level 2 and sets the best to at least 450 |
| Scenarios.BombExample | src/pages/Index.tsx:152-161 | a bomb at (100,100) removes itself and the bubble at (130,110), keeps the one at (400,400), counts 2 and scores 100 |
| Scenarios.DragExample | src/pages/Index.tsx:51-71 | press (0,0), move (250,0), release leaves the camera at (200,0) idle; a click mid-drag does nothing |

## Left out

- Rendering, Tailwind classes, icons, animations and the menu and records screens are presentation. The screen state is not modelled. Events stand for the buttons the game screen and level grid show.
- `Math.random`: every random choice is an input. Generation takes `draw(i)`; multicolor takes the drawn hue.
- Generation.SpecialChance: computed in exact reals, not binary floating point. A roll lying exactly on a floating-point rounding boundary may be classified differently.
- Effects: distances between bubbles are exact reals. The component subtracts in binary floating point, so a bubble lying within rounding of the 60 (bomb) or 30 (lightning) boundary may be classified differently.
- localStorage and `parseInt`: the store is a `map<string, int>` of already-parsed numbers. A stored string that parses to NaN is not modelled. Read and write failures are not modelled.
- Browser event dispatch is not modelled: which element receives a click once a press on a bubble has started a drag and disabled pointer events on the bubbles. A click is a `Pop` event. It has no effect while the camera is dragging.
- Pointer coordinates are integers; the browser's `clientX`/`clientY` may be fractional.
- React batching, `useCallback` dependencies and effect timing: the two effects run once (`Game.Settle`) after each change to their dependencies, which `Game.SettleIsIdempotent` shows is their fixpoint.
- The unused `selectedBubbles` state.
- Game.Step: the "endless mode", level-pick and "next level" events start games with the corrected `Game.StartGame`. That generates for the new mode, level and score 0, whereas the component generates with the previous ones (see Findings). The as-written generation appears only in `Game.StartGameAsWritten`.
- The ordinary-bubble filter removes every bubble with the clicked id but counts 1. The model keeps this as written; the lemmas about it assume unique ids, which generation guarantees.

## Findings

| source | as written | input that shows it | evidently intended | confidence | as-written member | corrected member |
|---|---|---|---|---|---|---|
| src/pages/Index.tsx:225-231 | `startGame` calls the `generateBubbles` captured in the current render, which still sees the previous mode, level and score | clear level 1 with 450 points, then press "next level": level 2 gets 45 bubbles instead of 50 (likewise, "endless mode" after a level game uses the level formula) | the field is sized for the new mode, the new level and score 0 | not executed; high | Game.StartGameAsWritten (Game.NextLevelGetsStaleField) | Game.StartGame |

=== FILE: basics.dfy ===
/** Small shared vocabulary: an optional value and integer/real helpers. */
module Basics {

  /** A value that may be absent (the source's `undefined`). */
  datatype Option<+T> = None | Some(value: T)

  function Min(a: int, b: int): (r: int)
    ensures r <= a && r <= b
    ensures r == a || r == b
  {
    if a < b then a else b
  }

  function Max(a: int, b: int): (r: int)
    ensures r >= a && r >= b
    ensures r == a || r == b
  {
    if a < b then b else a
  }

  function RealMin(a: real, b: real): (r: real) {
    if a < b then a else b
  }

  /** Absolute value of a real (JavaScript's `Math.abs` on a finite number). */
  function Abs(v: real): (r: real)
    ensures r >= 0.0
    ensures r == v || r == -v
  {
    if v < 0.0 then -v else v
  }
}

=== FILE: bubbles.dfy ===
/**
 * The data model of a playing field: bubbles, their colours and special
 * kinds, and the `bubble-<i>` identifiers the generator hands out.
 */
module Bubbles {
  import opened Basics
  import opened Seqs

  /** The six ordinary gradients of the palette, in palette order. */
  datatype Hue = Orange | Cyan | Purple | Amber | Pink | Green

  /** The three special bubble types. */
  datatype SpecialKind = Bomb | Multicolor | Lightning

  /**
   * A bubble's colour class: one of the ordinary hues, or the dedicated
   * gradient of a special kind (none of which equals an ordinary hue).
   */
  datatype Colour = Plain(hue: Hue) | Tint(kind: SpecialKind)

  /**
   * A bubble on the field. Positions and size are the generator's real-valued
   * draws; `special` is `None` for an ordinary bubble (the source's
   * `isSpecial`/`specialType` pair folded into one optional value).
   */
  datatype Bubble = Bubble(id: string, x: real, y: real, colour: Colour, size: real, special: Option<SpecialKind>)

  /** Exactly one of {ordinary colour, special kind} holds, and a special bubble wears its kind's tint. */
  predicate WellFormed(b: Bubble) {
    match b.special
    case None => b.colour.Plain?
    case Some(k) => b.colour == Tint(k)
  }

  predicate AllWellFormed(s: seq<Bubble>) {
    forall i :: 0 <= i < |s| ==> WellFormed(s[i])
  }

  /** No two bubbles of the field share an id. */
  predicate UniqueIds(s: seq<Bubble>) {
    forall i, j :: 0 <= i < j < |s| ==> s[i].id != s[j].id
  }

  function Digit(d: int): (c: char)
    requires 0 <= d < 10
    ensures '0' <= c <= '9'
  {
    ('0' as int + d) as char
  }

  /** JavaScript's decimal rendering of a non-negative integer (no leading zeros). */
  function Decimal(n: nat): (r: string)
    ensures |r| >= 1
    decreases n
  {
    if n < 10 then [Digit(n)] else Decimal(n / 10) + [Digit(n % 10)]
  }

  /** Reads a string of decimal digits back as a number. */
  function DecimalValue(s: string): (n: int)
    decreases |s|
  {
    if |s| == 0 then 0
    else DecimalValue(s[..|s| - 1]) * 10 + (s[|s| - 1] as int - '0' as int)
  }

  /** Reading back what `Decimal` wrote gives the number again. */
  lemma {:induction false} DecimalRoundTrip(n: nat)
    ensures DecimalValue(Decimal(n)) == n
    decreases n
  {
    if n < 10 {
      assert Decimal(n)[..0] == [];
    } else {
      var s := Decimal(n / 10) + [Digit(n % 10)];
      assert s[..|s| - 1] == Decimal(n / 10);
      DecimalRoundTrip(n / 10);
    }
  }

  const IdPrefix: string := "bubble-"

  /** The id of the i-th generated bubble: the template `bubble-${i}`. */
  function BubbleId(i: nat): (id: string) {
    IdPrefix + Decimal(i)
  }

  /** Different indices give different ids. */
  lemma BubbleIdInjective(i: nat, j: nat)
    ensures BubbleId(i) == BubbleId(j) <==> i == j
  {
    if BubbleId(i) == BubbleId(j) {
      assert BubbleId(i)[|IdPrefix|..] == Decimal(i);
      assert BubbleId(j)[|IdPrefix|..] == Decimal(j);
      DecimalRoundTrip(i);
      DecimalRoundTrip(j);
    }
  }

  /** A filter over a field with unique ids leaves a field with unique ids. */
  lemma {:induction false} FilterKeepsIdsUnique(s: seq<Bubble>, p: Bubble -> bool)
    ensures UniqueIds(s) ==> UniqueIds(Filter(s, p))
    decreases |s|
  {
    if |s| != 0 && UniqueIds(s) {
      var tail := s[1..];
      FilterKeepsIdsUnique(tail, p);
      var rest := Filter(tail, p);
      if p(s[0]) {
        var r := [s[0]] + rest;
        forall i, j | 0 <= i < j < |r|
          ensures r[i].id != r[j].id
        {
          if i == 0 {
            assert r[j] in tail;
            var m :| 0 <= m < |tail| && tail[m] == r[j];
            assert s[m + 1] == r[j];
          } else {
            assert r[i] == rest[i - 1] && r[j] == rest[j - 1];
          }
        }
      }
    }
  }

  /** Every bubble a filter keeps is well formed when the field was. */
  lemma FilterKeepsWellFormed(s: seq<Bubble>, p: Bubble -> bool)
    ensures AllWellFormed(s) ==> AllWellFormed(Filter(s, p))
  {
    var r := Filter(s, p);
    forall i | 0 <= i < |r| && AllWellFormed(s)
      ensures WellFormed(r[i])
    {
      assert r[i] in s;
    }
  }
}

=== FILE: effects.dfy ===
/**
 * Effect resolution: what a tap on a bubble removes from the field, how many
 * removals it counts and how many points it earns.
 */
module Effects {
  import opened Basics
  import opened Seqs
  import opened Bubbles

  const PopPoints := 10
  const BombPoints := 100
  const MulticolorPoints := 50
  const LightningPoints := 75

  /** Half-width of the bomb's square blast and of the lightning's vertical band. */
  const BlastReach: real := 60.0
  const BoltReach: real := 30.0

  /** Counted by a bomb at `c`: inside the axis-aligned box of half-width 60. */
  predicate InBlast(b: Bubble, c: Bubble) {
    Abs(b.x - c.x) <= BlastReach && Abs(b.y - c.y) <= BlastReach
  }

  /** Kept by a bomb at `c`: the keeping filter, written as its own condition. */
  predicate OutsideBlast(b: Bubble, c: Bubble) {
    Abs(b.x - c.x) > BlastReach || Abs(b.y - c.y) > BlastReach
  }

  /** Counted by lightning at `c`: horizontally within 30, whatever the height. */
  predicate InBolt(b: Bubble, c: Bubble) {
    Abs(b.x - c.x) <= BoltReach
  }

  predicate OutsideBolt(b: Bubble, c: Bubble) {
    Abs(b.x - c.x) > BoltReach
  }

  /** Counted by multicolor: wearing exactly the drawn ordinary hue. */
  predicate HasHue(b: Bubble, h: Hue) {
    b.colour == Plain(h)
  }

  predicate LacksHue(b: Bubble, h: Hue) {
    b.colour != Plain(h)
  }

  /** The keeping filter of a tap on `t` (the one that produces the new field). */
  function Keeps(t: Bubble, hue: Hue): (keep: Bubble -> bool) {
    match t.special
    case None => (b: Bubble) => b.id != t.id
    case Some(Bomb) => (b: Bubble) => OutsideBlast(b, t)
    case Some(Lightning) => (b: Bubble) => OutsideBolt(b, t)
    case Some(Multicolor) => (b: Bubble) => LacksHue(b, hue)
  }

  /** The counting filter of a tap on `t` (the one whose length is the removal count). */
  function Hits(t: Bubble, hue: Hue): (hit: Bubble -> bool) {
    match t.special
    case None => (b: Bubble) => b.id == t.id
    case Some(Bomb) => (b: Bubble) => InBlast(b, t)
    case Some(Lightning) => (b: Bubble) => InBolt(b, t)
    case Some(Multicolor) => (b: Bubble) => HasHue(b, hue)
  }

  /** The field after a tap, the removals it counts and the points it earns. */
  datatype Effect = Effect(kept: seq<Bubble>, removed: int, points: int)

  /**
   * The effect of tapping bubble `t` of field `s` (found by its id `t.id`);
   * `hue` is the colour a multicolor bubble draws. Each special effect keeps
   * exactly the bubbles its hit condition misses, in their original order,
   * and counts exactly the ones it drops.
   */
  function Resolve(s: seq<Bubble>, t: Bubble, hue: Hue): (e: Effect)
    ensures IsSubsequence(e.kept, s)
    ensures UniqueIds(s) ==> UniqueIds(e.kept)
    ensures AllWellFormed(s) ==> AllWellFormed(e.kept)
    ensures t.special.None? ==>
      e.points == PopPoints && e.removed == 1 &&
      forall b :: b in e.kept <==> b in s && b.id != t.id
    ensures t.special == Some(Bomb) ==>
      e.points == BombPoints && e.removed == |s| - |e.kept| &&
      forall b :: b in e.kept <==> b in s && !InBlast(b, t)
    ensures t.special == Some(Lightning) ==>
      e.points == LightningPoints && e.removed == |s| - |e.kept| &&
      forall b :: b in e.kept <==> b in s && !InBolt(b, t)
    ensures t.special == Some(Multicolor) ==>
      e.points == MulticolorPoints && e.removed == |s| - |e.kept| &&
      forall b :: b in e.kept <==> b in s && !HasHue(b, hue)
    ensures t.special.Some? && t.special.value != Multicolor ==> t !in e.kept
    ensures t.special == Some(Multicolor) && WellFormed(t) && t in s ==> t in e.kept
  {
    var keep := Keeps(t, hue);
    var hit := Hits(t, hue);
    var kept := Filter(s, keep);
    var gone := Filter(s, hit);
    FilterPartition(s, hit, keep);
    FilterIsSubsequence(s, keep);
    FilterKeepsIdsUnique(s, keep);
    FilterKeepsWellFormed(s, keep);
    match t.special
    case None => Effect(kept, 1, PopPoints)
    case Some(Bomb) => Effect(kept, |gone|, BombPoints)
    case Some(Lightning) => Effect(kept, |gone|, LightningPoints)
    case Some(Multicolor) => Effect(kept, |gone|, MulticolorPoints)
  }

  /** `Array.prototype.find` by id: the first index holding `id`, if any. */
  function Find(s: seq<Bubble>, id: string): (r: Option<nat>)
    ensures r.None? <==> forall i :: 0 <= i < |s| ==> s[i].id != id
    ensures r.Some? ==> r.value < |s| && s[r.value].id == id
    ensures r.Some? ==> forall i :: 0 <= i < r.value ==> s[i].id != id
    decreases |s|
  {
    if |s| == 0 then None
    else if s[0].id == id then Some(0)
    else match Find(s[1..], id)
      case None => None
      case Some(k) => Some(k + 1)
  }

  /** A tap on id `id`: nothing happens when no bubble carries it. */
  function Click(s: seq<Bubble>, id: string, hue: Hue): (r: Option<Effect>)
    ensures r.None? <==> forall i :: 0 <= i < |s| ==> s[i].id != id
  {
    match Find(s, id)
    case None => None
    case Some(k) => Some(Resolve(s, s[k], hue))
  }

  /**
   * On a field with unique ids, tapping ordinary bubble k removes exactly
   * that bubble, keeps the others in order, and scores 10 for one removal.
   */
  lemma PopRemovesOnlyTarget(s: seq<Bubble>, k: nat, hue: Hue)
    requires UniqueIds(s) && k < |s| && s[k].special.None?
    ensures Click(s, s[k].id, hue) == Some(Effect(s[..k] + s[k + 1..], 1, PopPoints))
  {
    var keep := Keeps(s[k], hue);
    assert Find(s, s[k].id) == Some(k);
    FilterDropsOne(s, k, keep);
  }
}

=== FILE: game.dfy ===
/**
 * The game session: mode, level, live score, the field, the camera and the
 * progression ledger, with the events the player can cause and the two
 * after-change effects (best score, level unlock).
 */
module Game {
  import opened Basics
  import opened Seqs
  import opened Bubbles
  import opened Generation
  import opened Effects
  import opened Viewport
  import opened Progress

  /** `popped` counts the bubbles removed since the field was generated. */
  datatype Session = Session(
    mode: Mode,
    level: int,
    score: int,
    bubbles: seq<Bubble>,
    popped: int,
    camera: Camera,
    ledger: Ledger)

  /** What the player can do during a session. */
  datatype Event =
    | Pointer(g: Gesture)                      // mouse and touch gestures on the field
    | Pop(id: string, hue: Hue)                // click on a bubble; `hue` is multicolor's draw
    | PlayEndless(draw: nat -> Draw)           // "endless mode" in the main menu
    | PickLevel(pick: int, draw: nat -> Draw)  // a button of the level grid
    | NextLevel(draw: nat -> Draw)             // "next level" after clearing a level
    | Continue(draw: nat -> Draw)              // "continue" after clearing an endless field

  /** What the session guarantees between events. */
  predicate Inv(s: Session) {
    && UniqueIds(s.bubbles)
    && AllWellFormed(s.bubbles)
    && InRange(s.camera.offset)
    && Persisted(s.ledger)
    && s.score >= 0
    && s.popped >= 0
    && s.level >= 1
  }

  /** The session at start-up, before any game: level 1, level mode, the stored progress. */
  function Init(store: map<string, int>): (s: Session)
    ensures Inv(s)
    ensures s.ledger.best == Stored(store, BestKey, 0)
    ensures s.ledger.endlessBest == Stored(store, EndlessKey, 0)
    ensures s.ledger.unlocked == Stored(store, UnlockKey, 1)
  {
    Session(LevelMode, 1, 0, [], 0, Home, Load(store))
  }

  /** The field has been played empty (the "level cleared" overlay is showing). */
  predicate Cleared(s: Session) {
    |s.bubbles| == 0 && s.popped > 0
  }

  /**
   * The two after-change effects, run once the state has changed: record the
   * score as the mode's best if it is higher, and unlock the next level when
   * a level-mode field was cleared at or beyond the watermark. Only the
   * ledger changes.
   */
  function Settle(s: Session): (r: Session)
    ensures r == s.(ledger := r.ledger)
    ensures s.mode == LevelMode ==> r.ledger.best == Max(s.ledger.best, s.score) && r.ledger.endlessBest == s.ledger.endlessBest
    ensures s.mode == EndlessMode ==> r.ledger.endlessBest == Max(s.ledger.endlessBest, s.score) && r.ledger.best == s.ledger.best
    ensures s.mode == LevelMode && Cleared(s) && s.level >= s.ledger.unlocked ==> r.ledger.unlocked == s.level + 1
    ensures !(s.mode == LevelMode && Cleared(s) && s.level >= s.ledger.unlocked) ==> r.ledger.unlocked == s.ledger.unlocked
    ensures Advances(s.ledger, r.ledger)
    ensures Inv(s) ==> Inv(r)
  {
    var l := RecordScore(s.ledger, s.mode, s.score);
    s.(ledger := RecordClear(l, s.mode, Cleared(s), s.level))
  }

  /** Running the effects again after they have settled changes nothing. */
  lemma SettleIsIdempotent(s: Session)
    ensures Settle(Settle(s)) == Settle(s)
  {
  }

  /** A fresh field for the session's own mode, level and score, with the counter and camera reset. */
  function Regenerate(s: Session, draw: nat -> Draw): (r: Session)
    ensures |r.bubbles| == Max(0, BubbleCount(s.mode, s.level, s.score))
    ensures r.popped == 0 && r.camera.offset == Point(0, 0) && r.camera.drag == s.camera.drag
    ensures r.mode == s.mode && r.level == s.level && r.score == s.score && r.ledger == s.ledger
    ensures Inv(s) ==> Inv(r)
  {
    s.(bubbles := Generate(s.mode, s.level, s.score, draw), popped := 0, camera := Recentre(s.camera))
  }

  /** The level a game starts at: the requested one when given and non-zero, else the current one. */
  function StartLevel(s: Session, level: Option<int>): (lv: int) {
    if level.Some? && level.value != 0 then level.value else s.level
  }

  /**
   * Start a game: set the mode (and the level when one is given), reset the
   * score, and generate a field for the NEW mode, level and a zero score.
   */
  function StartGame(s: Session, mode: Mode, level: Option<int>, draw: nat -> Draw): (r: Session)
    ensures r.mode == mode && r.score == 0 && r.popped == 0
    ensures level.Some? && level.value != 0 ==> r.level == level.value
    ensures level.None? ==> r.level == s.level
    ensures |r.bubbles| == Max(0, BubbleCount(mode, r.level, 0))
    ensures forall i :: 0 <= i < |r.bubbles| ==> r.bubbles[i].id == BubbleId(i)
    ensures r.camera.offset == Point(0, 0)
    ensures Advances(s.ledger, r.ledger)
    ensures Inv(s) && r.level >= 1 ==> Inv(r)
  {
    var lv := StartLevel(s, level);
    Settle(Regenerate(s.(mode := mode, level := lv, score := 0), draw))
  }

  /**
   * Start a game as the component is written: the field is generated by the
   * generator captured before the mode, level and score updates take effect,
   * so it is sized for the PREVIOUS mode, level and score.
   */
  function StartGameAsWritten(s: Session, mode: Mode, level: Option<int>, draw: nat -> Draw): (r: Session)
    ensures |r.bubbles| == Max(0, BubbleCount(s.mode, s.level, s.score))
  {
    var lv := StartLevel(s, level);
    var regenerated := Regenerate(s, draw);
    Settle(regenerated.(mode := mode, level := lv, score := 0))
  }

  /**
   * Advancing from a cleared level 1 with 450 points: as written, level 2
   * gets level 1's 45 bubbles instead of its own 50.
   */
  lemma NextLevelGetsStaleField(draw: nat -> Draw)
    ensures var s := Session(LevelMode, 1, 450, [], 45, Home,
                             Ledger(450, 0, 2, map[BestKey := 450, UnlockKey := 2]));
      && Inv(s) && Cleared(s)
      && |StartGameAsWritten(s, LevelMode, Some(2), draw).bubbles| == 45
      && StartGameAsWritten(s, LevelMode, Some(2), draw).level == 2
      && BubbleCount(LevelMode, 2, 0) == 50
      && |StartGame(s, LevelMode, Some(2), draw).bubbles| == 50
  {
  }

  /**
   * A click on a bubble. While the camera is dragging, clicks do not reach the
   * bubbles; a click on an id no longer on the field does nothing.
   */
  function Tap(s: Session, id: string, hue: Hue): (r: Session)
    ensures s.camera.drag.Dragging? ==> r == s
    ensures (forall i :: 0 <= i < |s.bubbles| ==> s.bubbles[i].id != id) ==> r == s
    ensures r.mode == s.mode && r.level == s.level && r.camera == s.camera
    ensures IsSubsequence(r.bubbles, s.bubbles)
    ensures r.score >= s.score && r.popped >= s.popped
    ensures Advances(s.ledger, r.ledger)
    ensures Inv(s) ==> Inv(r)
  {
    SubsequenceReflexive(s.bubbles);
    if s.camera.drag.Dragging? then s
    else match Click(s.bubbles, id, hue)
      case None => s
      case Some(e) => Settle(s.(bubbles := e.kept, score := s.score + e.points, popped := s.popped + e.removed))
  }

  /**
   * With the camera idle, a click on bubble k of a field with unique ids
   * resolves that bubble's effect: the field becomes the effect's survivors,
   * the score grows by its points, the counter by its removals, and the
   * effects settle the ledger.
   */
  lemma TapResolves(s: Session, k: nat, hue: Hue)
    requires s.camera.drag.Idle? && UniqueIds(s.bubbles) && k < |s.bubbles|
    ensures var e := Resolve(s.bubbles, s.bubbles[k], hue);
      Tap(s, s.bubbles[k].id, hue) == Settle(s.(bubbles := e.kept, score := s.score + e.points, popped := s.popped + e.removed))
  {
    assert Find(s.bubbles, s.bubbles[k].id) == Some(k);
  }

  /**
   * Clicking ordinary bubble k (camera idle, ids unique) removes exactly that
   * bubble, adds 10 points and 1 to the counter; the level best follows the
   * score in level mode, the endless best in endless mode, and the next level
   * unlocks when this was the last bubble of a level at the watermark.
   */
  lemma TapPopsOrdinary(s: Session, k: nat, hue: Hue)
    requires s.camera.drag.Idle? && UniqueIds(s.bubbles) && k < |s.bubbles|
    requires s.bubbles[k].special.None? && s.popped >= 0
    ensures var r := Tap(s, s.bubbles[k].id, hue);
      && r.bubbles == s.bubbles[..k] + s.bubbles[k + 1..]
      && r.score == s.score + PopPoints
      && r.popped == s.popped + 1
      && (s.mode == LevelMode ==> r.ledger.best == Max(s.ledger.best, r.score) && r.ledger.endlessBest == s.ledger.endlessBest)
      && (s.mode == EndlessMode ==> r.ledger.endlessBest == Max(s.ledger.endlessBest, r.score) && r.ledger.best == s.ledger.best)
      && r.ledger.unlocked == (if s.mode == LevelMode && |r.bubbles| == 0 && s.level >= s.ledger.unlocked then s.level + 1 else s.ledger.unlocked)
  {
    TapResolves(s, k, hue);
    PopRemovesOnlyTarget(s.bubbles, k, hue);
  }

  /**
   * Clicking a special bubble k (camera idle, ids unique): bomb and lightning
   * remove exactly the bubbles in their blast box or band, the bubble itself
   * included; multicolor removes exactly the bubbles of the drawn hue and so
   * never itself. Survivors keep their order, the counter grows by the
   * number removed, and the score by 100, 75 or 50.
   */
  lemma TapFiresSpecial(s: Session, k: nat, hue: Hue)
    requires s.camera.drag.Idle? && UniqueIds(s.bubbles) && AllWellFormed(s.bubbles) && k < |s.bubbles|
    requires s.bubbles[k].special.Some?
    ensures var t := s.bubbles[k];
      var r := Tap(s, t.id, hue);
      && IsSubsequence(r.bubbles, s.bubbles)
      && r.popped == s.popped + (|s.bubbles| - |r.bubbles|)
      && (t.special == Some(Bomb) ==>
            r.score == s.score + BombPoints && t !in r.bubbles &&
            forall b :: b in r.bubbles <==> b in s.bubbles && !InBlast(b, t))
      && (t.special == Some(Lightning) ==>
            r.score == s.score + LightningPoints && t !in r.bubbles &&
            forall b :: b in r.bubbles <==> b in s.bubbles && !InBolt(b, t))
      && (t.special == Some(Multicolor) ==>
            r.score == s.score + MulticolorPoints && t in r.bubbles &&
            forall b :: b in r.bubbles <==> b in s.bubbles && !HasHue(b, hue))
  {
    TapResolves(s, k, hue);
    assert WellFormed(s.bubbles[k]);
  }

  /** A field whose only bubble is a multicolor one can never be cleared by clicking: each click keeps it and adds 50. */
  lemma LoneMulticolorNeverClears(s: Session, hue: Hue)
    requires s.camera.drag.Idle? && |s.bubbles| == 1 && AllWellFormed(s.bubbles)
    requires s.bubbles[0].special == Some(Multicolor)
    ensures var r := Tap(s, s.bubbles[0].id, hue);
      r.bubbles == s.bubbles && r.score == s.score + MulticolorPoints && !Cleared(r)
  {
    TapResolves(s, 0, hue);
    assert WellFormed(s.bubbles[0]);
    var r := Tap(s, s.bubbles[0].id, hue);
    assert s.bubbles[0] in r.bubbles;
    assert |r.bubbles| <= 1;
    assert r.bubbles == [r.bubbles[0]];
  }

  /** One event. Buttons that the screen disables or does not show leave the session as it is. */
  function Step(s: Session, e: Event): (r: Session)
    ensures Advances(s.ledger, r.ledger)
    ensures Inv(s) ==> Inv(r)
    ensures e.Pointer? ==> r == s.(camera := Handle(s.camera, e.g))
    ensures e.PickLevel? && !(1 <= e.pick <= MaxLevel && IsUnlocked(e.pick, s.ledger.unlocked)) ==> r == s
    ensures e.PickLevel? && 1 <= e.pick <= MaxLevel && IsUnlocked(e.pick, s.ledger.unlocked) ==>
      r.mode == LevelMode && r.level == e.pick && r.score == 0 && r.popped == 0 &&
      |r.bubbles| == Max(0, BubbleCount(LevelMode, e.pick, 0)) && r.camera.offset == Point(0, 0)
    ensures e.PlayEndless? ==>
      r.mode == EndlessMode && r.level == s.level && r.score == 0 && r.popped == 0 &&
      |r.bubbles| == Max(0, BubbleCount(EndlessMode, s.level, 0)) && r.camera.offset == Point(0, 0)
    ensures e.NextLevel? && !CanAdvance(s.level) ==> r == s
    ensures e.NextLevel? && !(s.mode == LevelMode && Cleared(s)) ==> r == s
    ensures e.Pop? ==> r == Tap(s, e.id, e.hue)
    ensures e.Continue? && !(s.mode == EndlessMode && Cleared(s)) ==> r == s
    ensures e.Continue? && s.mode == EndlessMode && Cleared(s) ==>
      r.mode == EndlessMode && r.level == s.level && r.score == s.score && r.popped == 0 &&
      |r.bubbles| == Max(0, BubbleCount(EndlessMode, s.level, s.score)) && r.camera.offset == Point(0, 0)
    ensures e.NextLevel? && Inv(s) && s.mode == LevelMode && Cleared(s) && CanAdvance(s.level) ==>
      r.mode == LevelMode && r.level == s.level + 1 && r.score == 0 && r.popped == 0 &&
      |r.bubbles| == BubbleCount(LevelMode, s.level + 1, 0) && r.camera.offset == Point(0, 0)
  {
    match e
    case Pointer(g) => s.(camera := Handle(s.camera, g))
    case Pop(id, hue) => Tap(s, id, hue)
    case PlayEndless(draw) => StartGame(s, EndlessMode, None, draw)
    case PickLevel(pick, draw) =>
      if 1 <= pick <= MaxLevel && IsUnlocked(pick, s.ledger.unlocked) then StartGame(s, LevelMode, Some(pick), draw) else s
    case NextLevel(draw) =>
      if s.mode == LevelMode && Cleared(s) && CanAdvance(s.level) then StartGame(s, LevelMode, Some(s.level + 1), draw) else s
    case Continue(draw) =>
      if s.mode == EndlessMode && Cleared(s) then Settle(Regenerate(s, draw)) else s
  }

  function Run(s: Session, es: seq<Event>): (r: Session)
    decreases |es|
  {
    if |es| == 0 then s else Run(Step(s, es[0]), es[1..])
  }

  /**
   * Over any sequence of events the invariant holds throughout and no
   * progress is lost: both bests and the watermark never decrease.
   */
  lemma {:induction false} RunKeepsInvariant(s: Session, es: seq<Event>)
    requires Inv(s)
    ensures Inv(Run(s, es))
    ensures Advances(s.ledger, Run(s, es).ledger)
    decreases |es|
  {
    if |es| != 0 {
      RunKeepsInvariant(Step(s, es[0]), es[1..]);
    }
  }

  /**
   * Play keeps the level inside the grid and the watermark at most one past
   * it: picks are limited to 1..20, "next level" stops at 20, and an unlock
   * sets the watermark to level + 1.
   */
  lemma {:induction false} RunKeepsWatermarkInGrid(s: Session, es: seq<Event>)
    requires Inv(s) && s.level <= MaxLevel && s.ledger.unlocked <= MaxLevel + 1
    ensures Run(s, es).level <= MaxLevel && Run(s, es).ledger.unlocked <= MaxLevel + 1
    decreases |es|
  {
    if |es| != 0 {
      var s1 := Step(s, es[0]);
      assert s1.level <= MaxLevel && s1.ledger.unlocked <= MaxLevel + 1;
      RunKeepsWatermarkInGrid(s1, es[1..]);
    }
  }
}

=== FILE: generation.dfy ===
/**
 * Field generation: how many bubbles a round has, how likely each is to be
 * special, and how the per-bubble random draws become bubbles.
 */
module Generation {
  import opened Basics
  import opened Bubbles

  /** The two play modes. */
  datatype Mode = LevelMode | EndlessMode

  /** Difficulty tier of endless mode: one step per 500 points (`Math.floor(score / 500)`). */
  function Tier(score: int): (t: int) {
    score / 500
  }

  /** Number of bubbles in a freshly generated field. */
  function BubbleCount(mode: Mode, level: int, score: int): (n: int) {
    match mode
    case LevelMode => Min(40 + level * 5, 80)
    case EndlessMode => Min(50 + Tier(score) * 3, 90)
  }

  /** Probability that a generated bubble is special. */
  function SpecialChance(mode: Mode, level: int, score: int): (r: real)
    ensures mode == LevelMode ==> r <= 0.2
    ensures mode == LevelMode && level >= 1 ==> r >= 0.07
    ensures mode == EndlessMode ==> r <= 0.15
    ensures mode == EndlessMode && score >= 0 ==> r >= 0.08
  {
    match mode
    case LevelMode => RealMin(0.05 + level as real * 0.02, 0.2)
    case EndlessMode => RealMin(0.08 + Tier(score) as real * 0.01, 0.15)
  }

  /**
   * The random draws of one bubble: `roll` decides whether it is special,
   * `kind` is its special type if so, `hue` its palette colour otherwise,
   * then its position on the 700 x 800 canvas and its size.
   */
  datatype Draw = Draw(roll: real, kind: SpecialKind, hue: Hue, x: real, y: real, size: real)

  /** Draws within the ranges `Math.random()` and its scalings produce. */
  predicate ValidDraw(d: Draw) {
    0.0 <= d.roll < 1.0 && 0.0 <= d.x < 700.0 && 0.0 <= d.y < 800.0 && 30.0 <= d.size <= 50.0
  }

  /** A bubble lies on the oversized canvas with a size in [30, 50]. */
  predicate OnCanvas(b: Bubble) {
    0.0 <= b.x < 700.0 && 0.0 <= b.y < 800.0 && 30.0 <= b.size <= 50.0
  }

  /** The i-th bubble of a field built from its draw. */
  function Spawn(i: nat, chance: real, d: Draw): (b: Bubble)
    ensures WellFormed(b)
    ensures b.x == d.x && b.y == d.y && b.size == d.size
    ensures b.id == BubbleId(i)
    ensures b.special.Some? <==> d.roll < chance
    ensures b.special.Some? ==> b.special.value == d.kind
    ensures b.special.None? ==> b.colour == Plain(d.hue)
    ensures ValidDraw(d) ==> OnCanvas(b)
  {
    if d.roll < chance then Bubble(BubbleId(i), d.x, d.y, Tint(d.kind), d.size, Some(d.kind))
    else Bubble(BubbleId(i), d.x, d.y, Plain(d.hue), d.size, None)
  }

  /**
   * A fresh field for the given mode, level and score; `draw(i)` supplies the
   * random choices of bubble i. A non-positive count yields an empty field,
   * as the generating loop then runs zero times.
   */
  function Generate(mode: Mode, level: int, score: int, draw: nat -> Draw): (r: seq<Bubble>)
    ensures |r| == Max(0, BubbleCount(mode, level, score))
    ensures forall i :: 0 <= i < |r| ==> r[i].id == BubbleId(i)
    ensures UniqueIds(r)
    ensures AllWellFormed(r)
    ensures forall i :: 0 <= i < |r| ==> (r[i].special.Some? <==> draw(i).roll < SpecialChance(mode, level, score))
    ensures forall i :: 0 <= i < |r| ==>
      && r[i].x == draw(i).x && r[i].y == draw(i).y && r[i].size == draw(i).size
      && (r[i].special.Some? ==> r[i].special.value == draw(i).kind && r[i].colour == Tint(draw(i).kind))
      && (r[i].special.None? ==> r[i].colour == Plain(draw(i).hue))
    ensures (forall i: nat :: ValidDraw(draw(i))) ==> forall i :: 0 <= i < |r| ==> OnCanvas(r[i])
  {
    var n := Max(0, BubbleCount(mode, level, score));
    var chance := SpecialChance(mode, level, score);
    var r := seq(n, i requires 0 <= i < n => Spawn(i, chance, draw(i)));
    assert forall i :: 0 <= i < n ==> r[i] == Spawn(i, chance, draw(i));
    assert UniqueIds(r) by {
      forall i, j | 0 <= i < j < n
        ensures r[i].id != r[j].id
      {
        BubbleIdInjective(i, j);
      }
    }
    r
  }

  /** In level mode a field has 45 bubbles at level 1, five more per level, and at most 80 (reached at level 8). */
  lemma LevelCount(level: int)
    requires level >= 1
    ensures 45 <= BubbleCount(LevelMode, level, 0) <= 80
    ensures level < 8 ==> BubbleCount(LevelMode, level, 0) == 40 + 5 * level
    ensures level >= 8 ==> BubbleCount(LevelMode, level, 0) == 80
  {
  }

  /** In endless mode a field has 50 bubbles below 500 points, three more per 500 points, at most 90 (from 7000 points). */
  lemma EndlessCount(score: int)
    requires score >= 0
    ensures 50 <= BubbleCount(EndlessMode, 0, score) <= 90
    ensures score < 500 ==> BubbleCount(EndlessMode, 0, score) == 50
    ensures score < 7000 ==> BubbleCount(EndlessMode, 0, score) == 50 + 3 * (score / 500)
    ensures score >= 7000 ==> BubbleCount(EndlessMode, 0, score) == 90
  {
  }

  /** Difficulty never falls as the level or the score grows; level mode ignores the score and endless mode the level. */
  lemma CountMonotone(mode: Mode, l1: int, l2: int, s1: int, s2: int)
    requires l1 <= l2 && s1 <= s2
    ensures BubbleCount(mode, l1, s1) <= BubbleCount(mode, l2, s2)
    ensures SpecialChance(mode, l1, s1) <= SpecialChance(mode, l2, s2)
    ensures mode == LevelMode ==> BubbleCount(mode, l1, s1) == BubbleCount(mode, l1, s2)
    ensures mode == EndlessMode ==> BubbleCount(mode, l1, s1) == BubbleCount(mode, l2, s1)
  {
  }
}

=== FILE: progress.dfy ===
/**
 * The progression ledger: best score per mode, the unlocked-level watermark,
 * the key-value store they are written through, and the level grid's
 * unlocked/completed status.
 */
module Progress {
  import opened Basics
  import opened Seqs
  import opened Generation

  const BestKey := "bubbleKvasBestScore"
  const EndlessKey := "bubbleKvasEndlessScore"
  const UnlockKey := "bubbleKvasUnlockedLevels"

  /** The highest level of the grid. */
  const MaxLevel := 20

  /**
   * Best level-mode score, best endless score, unlocked watermark and the
   * persistent store (keys mapped to the numbers their strings spell).
   */
  datatype Ledger = Ledger(best: int, endlessBest: int, unlocked: int, store: map<string, int>)

  /** The value a key gives at start-up: the stored number, or the default when absent. */
  function Stored(store: map<string, int>, key: string, default: int): (v: int) {
    if key in store then store[key] else default
  }

  /** Every ledger value is what a reload of its store would give back. */
  predicate Persisted(l: Ledger) {
    && l.best == Stored(l.store, BestKey, 0)
    && l.endlessBest == Stored(l.store, EndlessKey, 0)
    && l.unlocked == Stored(l.store, UnlockKey, 1)
  }

  /** Start-up: read the three keys, defaulting to 0, 0 and 1. */
  function Load(store: map<string, int>): (l: Ledger)
    ensures l.store == store
    ensures Persisted(l)
  {
    Ledger(Stored(store, BestKey, 0), Stored(store, EndlessKey, 0), Stored(store, UnlockKey, 1), store)
  }

  /** Reloading from a persisted ledger's store restores the ledger exactly. */
  lemma ReloadRestores(l: Ledger)
    requires Persisted(l)
    ensures Load(l.store) == l
  {
  }

  /** No progress is ever lost: all three values only rise. */
  predicate Advances(l: Ledger, r: Ledger) {
    r.best >= l.best && r.endlessBest >= l.endlessBest && r.unlocked >= l.unlocked
  }

  /**
   * The best-score effect: the current mode's best becomes the larger of
   * itself and `score`, written to the store when it rises; the other mode's
   * best and the watermark are untouched.
   */
  function RecordScore(l: Ledger, mode: Mode, score: int): (r: Ledger)
    ensures mode == LevelMode ==> r.best == Max(l.best, score) && r.endlessBest == l.endlessBest
    ensures mode == EndlessMode ==> r.endlessBest == Max(l.endlessBest, score) && r.best == l.best
    ensures r.unlocked == l.unlocked
    ensures Advances(l, r)
    ensures Persisted(l) ==> Persisted(r)
    ensures r.store.Keys <= l.store.Keys + {BestKey, EndlessKey}
    ensures r.store ==
      if r.best != l.best then l.store[BestKey := r.best]
      else if r.endlessBest != l.endlessBest then l.store[EndlessKey := r.endlessBest]
      else l.store
  {
    if mode == LevelMode && score > l.best then
      l.(best := score, store := l.store[BestKey := score])
    else if mode == EndlessMode && score > l.endlessBest then
      l.(endlessBest := score, store := l.store[EndlessKey := score])
    else l
  }

  /**
   * The level-clear effect: a level-mode field that has been emptied by play
   * (`cleared`) at a level at or beyond the watermark raises the watermark to
   * the next level and writes it; anything else changes nothing.
   */
  function RecordClear(l: Ledger, mode: Mode, cleared: bool, level: int): (r: Ledger)
    ensures mode == LevelMode && cleared && level >= l.unlocked ==>
      r.unlocked == level + 1 && r.unlocked > l.unlocked && r.store == l.store[UnlockKey := level + 1]
    ensures !(mode == LevelMode && cleared && level >= l.unlocked) ==> r == l
    ensures r.best == l.best && r.endlessBest == l.endlessBest
    ensures Advances(l, r)
    ensures Persisted(l) ==> Persisted(r)
  {
    if mode == LevelMode && cleared && level >= l.unlocked then
      l.(unlocked := level + 1, store := l.store[UnlockKey := level + 1])
    else l
  }

  /** A level button is enabled. */
  predicate IsUnlocked(level: int, unlocked: int) {
    level <= unlocked
  }

  /** A level button shows the completed check mark. */
  predicate IsCompleted(level: int, unlocked: int) {
    level < unlocked
  }

  /** The "next level" button is enabled. */
  predicate CanAdvance(level: int) {
    level < MaxLevel
  }

  /** Level status: completed implies unlocked, and after clearing level L, L is completed and L + 1 unlocked. */
  lemma LevelStatus(level: int, l: Ledger, cleared: bool)
    ensures forall u :: IsCompleted(level, u) ==> IsUnlocked(level, u)
    ensures forall u :: IsUnlocked(level, u) && !IsCompleted(level, u) ==> level == u
    ensures var r := RecordClear(l, LevelMode, cleared, level);
      cleared ==> IsCompleted(level, r.unlocked) && IsUnlocked(level + 1, r.unlocked)
  {
  }

  /** The first n level numbers, 1..n, as the grid lists them. */
  function Grid(n: nat): (r: seq<int>)
    ensures |r| == n
    decreases n
  {
    if n == 0 then [] else Grid(n - 1) + [n]
  }

  function CompletedBy(unlocked: int): (done: int -> bool) {
    (level: int) => IsCompleted(level, unlocked)
  }

  /** The levels among the first n that show a check mark. */
  function Completed(n: nat, unlocked: int): (levels: seq<int>) {
    Filter(Grid(n), CompletedBy(unlocked))
  }

  /** Among the first n levels, exactly min(n, unlocked - 1) (and at least 0) are completed. */
  lemma {:induction false} CompletedCount(n: nat, unlocked: int)
    ensures |Completed(n, unlocked)| == Max(0, Min(n, unlocked - 1))
    decreases n
  {
    if n != 0 {
      CompletedCount(n - 1, unlocked);
      FilterConcat(Grid(n - 1), [n], CompletedBy(unlocked));
      assert [n][1..] == [];
    }
  }

  /**
   * The progress line "completed: unlocked - 1 / 20" agrees with the grid:
   * for a watermark in 1..21 exactly `unlocked - 1` of the 20 levels are
   * marked completed.
   */
  lemma ProgressLineMatchesGrid(unlocked: int)
    requires 1 <= unlocked <= MaxLevel + 1
    ensures |Completed(MaxLevel, unlocked)| == unlocked - 1
  {
    CompletedCount(MaxLevel, unlocked);
  }
}

=== FILE: scenarios.dfy ===
/** Whole-round behaviours: clearing a field bubble by bubble, and the worked examples of the game's rules. */
module Scenarios {
  import opened Basics
  import opened Seqs
  import opened Bubbles
  import opened Generation
  import opened Effects
  import opened Viewport
  import opened Progress
  import opened Game

  /** The ids of a field, in field order. */
  function Ids(bs: seq<Bubble>): (r: seq<string>)
    ensures |r| == |bs|
    decreases |bs|
  {
    if |bs| == 0 then [] else [bs[0].id] + Ids(bs[1..])
  }

  /** Click the given ids one after another. */
  function TapAll(s: Session, ids: seq<string>, hue: Hue): (r: Session)
    decreases |ids|
  {
    if |ids| == 0 then s else TapAll(Tap(s, ids[0], hue), ids[1..], hue)
  }

  /**
   * Clicking every bubble of an all-ordinary field, in field order, empties
   * it, scores 10 per bubble, counts every bubble, leaves the mode's best at
   * least the final score and, in level mode at or beyond the watermark,
   * unlocks the next level.
   */
  lemma {:induction false} ClearingByClicks(s: Session, hue: Hue)
    requires Inv(s) && s.camera.drag.Idle?
    requires forall i :: 0 <= i < |s.bubbles| ==> s.bubbles[i].special.None?
    ensures var r := TapAll(s, Ids(s.bubbles), hue);
      && r.bubbles == []
      && r.score == s.score + PopPoints * |s.bubbles|
      && r.popped == s.popped + |s.bubbles|
      && (|s.bubbles| > 0 && s.mode == LevelMode ==> r.ledger.best == Max(s.ledger.best, r.score))
      && (|s.bubbles| > 0 && s.mode == EndlessMode ==> r.ledger.endlessBest == Max(s.ledger.endlessBest, r.score))
      && (|s.bubbles| > 0 && s.mode == LevelMode && s.level >= s.ledger.unlocked ==> r.ledger.unlocked == s.level + 1)
    decreases |s.bubbles|
  {
    var bs := s.bubbles;
    if |bs| != 0 {
      var ids := Ids(bs);
      assert ids[0] == bs[0].id && ids[1..] == Ids(bs[1..]);
      var s1 := Tap(s, bs[0].id, hue);
      TapPopsOrdinary(s, 0, hue);
      assert s1.bubbles == bs[1..];
      assert forall i :: 0 <= i < |s1.bubbles| ==> s1.bubbles[i] == bs[i + 1];
      ClearingByClicks(s1, hue);
    }
  }

  /**
   * A new player starts level 1 and no bubble comes out special: the field
   * holds 45 bubbles, and clicking them all scores 450, unlocks level 2 and
   * makes the level best at least 450.
   */
  lemma FirstLevelCleared(store: map<string, int>, draw: nat -> Draw, hue: Hue)
    requires forall i: nat :: draw(i).roll >= 0.07
    requires Stored(store, UnlockKey, 1) <= 1
    ensures var s := StartGame(Init(store), LevelMode, Some(1), draw);
      var r := TapAll(s, Ids(s.bubbles), hue);
      && |s.bubbles| == 45
      && r.bubbles == []
      && r.score == 450
      && r.ledger.unlocked == 2
      && r.ledger.best >= 450
  {
    var s := StartGame(Init(store), LevelMode, Some(1), draw);
    assert SpecialChance(LevelMode, 1, 0) == 0.07;
    assert forall i :: 0 <= i < |s.bubbles| ==> s.bubbles[i].special.None?;
    ClearingByClicks(s, hue);
  }

  /**
   * A bomb at (100, 100) next to an ordinary bubble at (130, 110) and far
   * from one at (400, 400): the bomb and its neighbour go, the far bubble
   * stays, for two removals and 100 points.
   */
  lemma BombExample(hue: Hue)
    ensures var bomb := Bubble("bubble-0", 100.0, 100.0, Tint(Bomb), 30.0, Some(Bomb));
      var near := Bubble("bubble-1", 130.0, 110.0, Plain(Orange), 30.0, None);
      var far := Bubble("bubble-2", 400.0, 400.0, Plain(Cyan), 30.0, None);
      Click([bomb, near, far], "bubble-0", hue) == Some(Effect([far], 2, BombPoints))
  {
    var bomb := Bubble("bubble-0", 100.0, 100.0, Tint(Bomb), 30.0, Some(Bomb));
    var near := Bubble("bubble-1", 130.0, 110.0, Plain(Orange), 30.0, None);
    var far := Bubble("bubble-2", 400.0, 400.0, Plain(Cyan), 30.0, None);
    var s := [bomb, near, far];
    assert s[1..] == [near, far] && s[1..][1..] == [far] && s[1..][1..][1..] == [];
    assert Find(s, "bubble-0") == Some(0);
    var keep := Keeps(bomb, hue);
    var hit := Hits(bomb, hue);
    assert !keep(bomb) && !keep(near) && keep(far);
    assert hit(bomb) && hit(near) && !hit(far);
    assert Filter(s, keep) == [far];
    assert Filter([far], hit) == [];
    assert Filter([near, far], hit) == [near];
    assert Filter(s, hit) == [bomb] + [near];
  }

  /**
   * Pressing at (0, 0) from the origin, dragging to (250, 0) and releasing
   * leaves the camera at (200, 0), idle; a click during the drag does nothing.
   */
  lemma DragExample(s: Session, id: string, hue: Hue)
    requires s.camera == Home
    ensures Replay(Home, [MouseDown(Point(0, 0)), MouseMove(Point(250, 0)), MouseUp]) == Camera(Point(200, 0), Idle)
    ensures var mid := s.(camera := Handle(s.camera, MouseDown(Point(0, 0))));
      Tap(mid, id, hue) == mid
  {
    var gs := [MouseDown(Point(0, 0)), MouseMove(Point(250, 0)), MouseUp];
    assert gs[1..] == [MouseMove(Point(250, 0)), MouseUp];
    assert gs[1..][1..] == [MouseUp];
    assert gs[1..][1..][1..] == [];
  }
}

=== FILE: seqs.dfy ===
/** Order-preserving filters over sequences and the facts the effects rely on. */
module Seqs {

  /** `Array.prototype.filter`: the elements of `s` that satisfy `p`, in order. */
  function Filter<T(==,!new)>(s: seq<T>, p: T -> bool): (r: seq<T>)
    ensures |r| <= |s|
    ensures forall x :: x in r <==> x in s && p(x)
    decreases |s|
  {
    if |s| == 0 then []
    else if p(s[0]) then [s[0]] + Filter(s[1..], p)
    else Filter(s[1..], p)
  }

  /** `a` occurs in `b` in the same order, possibly with gaps. */
  predicate IsSubsequence<T(==,!new)>(a: seq<T>, b: seq<T>)
    decreases |b|
  {
    if |a| == 0 then true
    else if |b| == 0 then false
    else if a[0] == b[0] then IsSubsequence(a[1..], b[1..])
    else IsSubsequence(a, b[1..])
  }

  /** Every sequence is a subsequence of itself. */
  lemma {:induction false} SubsequenceReflexive<T(!new)>(s: seq<T>)
    ensures IsSubsequence(s, s)
    decreases |s|
  {
    if |s| != 0 {
      SubsequenceReflexive(s[1..]);
    }
  }

  /** Filtering distributes over concatenation. */
  lemma {:induction false} FilterConcat<T(!new)>(a: seq<T>, b: seq<T>, p: T -> bool)
    ensures Filter(a + b, p) == Filter(a, p) + Filter(b, p)
    decreases |a|
  {
    if |a| == 0 {
      assert a + b == b;
    } else {
      assert (a + b)[1..] == a[1..] + b;
      FilterConcat(a[1..], b, p);
    }
  }

  /** A filter that every element passes is the identity. */
  lemma {:induction false} FilterKeepsAll<T(!new)>(s: seq<T>, p: T -> bool)
    requires forall x :: x in s ==> p(x)
    ensures Filter(s, p) == s
    decreases |s|
  {
    if |s| != 0 {
      assert forall x :: x in s[1..] ==> x in s;
      FilterKeepsAll(s[1..], p);
      assert [s[0]] + s[1..] == s;
    }
  }

  /**
   * Two filters whose predicates are complements split the input: every
   * element lands in exactly one of them, so together they hold the input's
   * elements with their multiplicities and their lengths add up.
   */
  lemma {:induction false} FilterPartition<T(!new)>(s: seq<T>, hit: T -> bool, keep: T -> bool)
    requires forall x :: keep(x) == !hit(x)
    ensures multiset(Filter(s, hit)) + multiset(Filter(s, keep)) == multiset(s)
    ensures |Filter(s, hit)| + |Filter(s, keep)| == |s|
    decreases |s|
  {
    if |s| != 0 {
      FilterPartition(s[1..], hit, keep);
      assert s == [s[0]] + s[1..];
      assert multiset(s) == multiset{s[0]} + multiset(s[1..]);
    }
  }

  /** A filter keeps the survivors in their original order. */
  lemma {:induction false} FilterIsSubsequence<T(!new)>(s: seq<T>, p: T -> bool)
    ensures IsSubsequence(Filter(s, p), s)
    decreases |s|
  {
    if |s| != 0 {
      FilterIsSubsequence(s[1..], p);
      var rest := Filter(s[1..], p);
      if p(s[0]) {
        assert ([s[0]] + rest)[1..] == rest;
      } else if |rest| != 0 {
        assert rest[0] in rest;
      }
    }
  }

  /** A filter that rejects exactly the element at index k removes just that element. */
  lemma {:induction false} FilterDropsOne<T(!new)>(s: seq<T>, k: nat, p: T -> bool)
    requires k < |s| && !p(s[k])
    requires forall i :: 0 <= i < |s| && i != k ==> p(s[i])
    ensures Filter(s, p) == s[..k] + s[k + 1..]
    decreases |s|
  {
    var tail := s[1..];
    if k == 0 {
      forall x | x in tail
        ensures p(x)
      {
        var m :| 0 <= m < |tail| && tail[m] == x;
        assert s[m + 1] == x;
      }
      FilterKeepsAll(tail, p);
    } else {
      FilterDropsOne(tail, k - 1, p);
      assert [s[0]] + (tail[..k - 1] + tail[k..]) == s[..k] + s[k + 1..];
    }
  }
}

=== FILE: viewport.dfy ===
/**
 * The camera over the oversized field: a two-state drag machine whose moves
 * set the offset to the clamped anchor-plus-displacement on each axis.
 */
module Viewport {

  /** How far the camera may pan from the origin on each axis. */
  const PanLimit := 200

  datatype Point = Point(x: int, y: int)

  /**
   * `Dragging` records where the pointer went down and the offset the camera
   * had then (the pan anchor).
   */
  datatype Drag = Idle | Dragging(start: Point, anchor: Point)

  datatype Camera = Camera(offset: Point, drag: Drag)

  /** Pointer and touch events on the field. `touches` lists the active touch points. */
  datatype Gesture =
    | MouseDown(p: Point)
    | MouseMove(p: Point)
    | MouseUp
    | MouseLeave
    | TouchStart(touches: seq<Point>)
    | TouchMove(touches: seq<Point>)
    | TouchEnd

  const Home := Camera(Point(0, 0), Idle)

  /** `Math.max(-200, Math.min(200, v))`. */
  function Clamp(v: int): (r: int)
    ensures -PanLimit <= r <= PanLimit
    ensures -PanLimit <= v <= PanLimit ==> r == v
    ensures v > PanLimit ==> r == PanLimit
    ensures v < -PanLimit ==> r == -PanLimit
  {
    if v > PanLimit then PanLimit else if v < -PanLimit then -PanLimit else v
  }

  predicate InRange(p: Point) {
    -PanLimit <= p.x <= PanLimit && -PanLimit <= p.y <= PanLimit
  }

  /** The offset a drag from `start` with anchor `anchor` shows when the pointer is at `p`. */
  function Pan(start: Point, anchor: Point, p: Point): (r: Point)
    ensures InRange(r)
  {
    Point(Clamp(anchor.x + (p.x - start.x)), Clamp(anchor.y + (p.y - start.y)))
  }

  /** Press: start dragging from `p`, anchored at the current offset. */
  function Press(c: Camera, p: Point): (r: Camera)
    ensures r.offset == c.offset
    ensures r.drag == Dragging(p, c.offset)
    ensures InRange(c.offset) ==> MoveTo(r, p) == r
  {
    Camera(c.offset, Dragging(p, c.offset))
  }

  /** Move: ignored unless dragging; otherwise pan to the clamped target. */
  function MoveTo(c: Camera, p: Point): (r: Camera)
    ensures c.drag.Idle? ==> r == c
    ensures r.drag == c.drag
    ensures c.drag.Dragging? ==>
      r.offset.x == Clamp(c.drag.anchor.x + (p.x - c.drag.start.x)) &&
      r.offset.y == Clamp(c.drag.anchor.y + (p.y - c.drag.start.y))
    ensures c.drag.Dragging? ==> InRange(r.offset)
  {
    match c.drag
    case Idle => c
    case Dragging(start, anchor) => Camera(Pan(start, anchor, p), c.drag)
  }

  /** Release (mouse up, mouse leaving the field, touch end): stop dragging, keep the offset. */
  function Release(c: Camera): (r: Camera)
    ensures r.drag.Idle? && r.offset == c.offset
    ensures forall q :: MoveTo(r, q) == r
  {
    Camera(c.offset, Idle)
  }

  /**
   * Generating a field puts the camera back at the origin; the drag state is
   * untouched, so a drag in progress pans from its old anchor on the next
   * move as if the recentring had not happened.
   */
  function Recentre(c: Camera): (r: Camera)
    ensures r.offset == Point(0, 0) && r.drag == c.drag
    ensures InRange(r.offset)
    ensures c.drag.Dragging? ==> forall q :: MoveTo(r, q) == MoveTo(c, q)
    ensures c.drag.Idle? ==> forall q :: MoveTo(r, q) == r
  {
    Camera(Point(0, 0), c.drag)
  }

  /** One gesture. Touch gestures act only when exactly one finger is down. */
  function Handle(c: Camera, g: Gesture): (r: Camera)
    ensures InRange(c.offset) ==> InRange(r.offset)
    ensures g.MouseUp? || g.MouseLeave? || g.TouchEnd? ==> r.drag.Idle? && r.offset == c.offset
    ensures (g.MouseMove? || g.TouchMove?) && c.drag.Idle? ==> r == c
    ensures g.TouchStart? && |g.touches| != 1 ==> r == c
    ensures g.TouchStart? && |g.touches| == 1 ==> r.drag == Dragging(g.touches[0], c.offset)
    ensures g.MouseDown? ==> r.drag == Dragging(g.p, c.offset)
    ensures g.TouchMove? && |g.touches| != 1 ==> r == c
    ensures g.MouseMove? ==> r == MoveTo(c, g.p)
    ensures g.TouchMove? && |g.touches| == 1 && c.drag.Dragging? ==> r == MoveTo(c, g.touches[0])
    ensures (g.MouseMove? || (g.TouchMove? && |g.touches| == 1)) && c.drag.Dragging? ==>
      var p := if g.MouseMove? then g.p else g.touches[0];
      r.offset == Point(Clamp(c.drag.anchor.x + (p.x - c.drag.start.x)), Clamp(c.drag.anchor.y + (p.y - c.drag.start.y)))
    ensures g.MouseDown? || g.TouchStart? ==> r.offset == c.offset
  {
    match g
    case MouseDown(p) => Press(c, p)
    case MouseMove(p) => MoveTo(c, p)
    case MouseUp => Release(c)
    case MouseLeave => Release(c)
    case TouchStart(ts) => if |ts| == 1 then Press(c, ts[0]) else c
    case TouchMove(ts) => if c.drag.Idle? || |ts| != 1 then c else MoveTo(c, ts[0])
    case TouchEnd => Release(c)
  }

  function Replay(c: Camera, gs: seq<Gesture>): (r: Camera)
    decreases |gs|
  {
    if |gs| == 0 then c else Replay(Handle(c, gs[0]), gs[1..])
  }

  /** However long or wild the gesture sequence, the offset stays within [-200, 200] on both axes. */
  lemma {:induction false} ReplayStaysInRange(c: Camera, gs: seq<Gesture>)
    requires InRange(c.offset)
    ensures InRange(Replay(c, gs).offset)
    decreases |gs|
  {
    if |gs| != 0 {
      ReplayStaysInRange(Handle(c, gs[0]), gs[1..]);
    }
  }

  /** A gesture sequence that ends with a release leaves the camera idle. */
  lemma {:induction false} ReleaseEndsDrag(c: Camera, gs: seq<Gesture>)
    requires |gs| > 0 && (gs[|gs| - 1].MouseUp? || gs[|gs| - 1].MouseLeave? || gs[|gs| - 1].TouchEnd?)
    ensures Replay(c, gs).drag.Idle?
    decreases |gs|
  {
    if |gs| > 1 {
      assert gs[1..][|gs[1..]| - 1] == gs[|gs| - 1];
      ReleaseEndsDrag(Handle(c, gs[0]), gs[1..]);
    }
  }

  /**
   * Moves do not accumulate: within one drag, the offset depends only on the
   * latest pointer position, not on the path taken to it.
   */
  lemma MovesDoNotAccumulate(c: Camera, p: Point, q: Point)
    ensures MoveTo(MoveTo(c, p), q) == MoveTo(c, q)
  {
  }
}
